=== FILE: README.md ===
# Muttley asset registry and latest-message store, in Dafny

This project models two small cores of the muttley monitoring system and
proves properties of them.

1. **The asset registry** in `banco_de_dados/criacao.py`. It is a SQLite database with four
   tables: assets (`ativos`), cameras (`cameras`), asset–camera links
   (`ativos_cameras`) and buzzers (`buzzers`). The model keeps the constraints the
   schema enforces:
   - AUTOINCREMENT ids;
   - NOT NULL names;
   - the composite primary key on links;
   - the UNIQUE asset column on buzzers.

   Every write function is a pure transition `Db -> Result<Db, DbError>`. A
   `Failure` is the exception Python raises, and in that case the database keeps its
   previous state. The two listing functions are pure queries.

   The central property is the one-to-one link between buzzers and assets. It holds
   in a freshly created schema and after any sequence of calls. The rebind
   (`vincular_buzzer_ativo`) preserves it because it clears the asset's current
   holder before it sets the new binding. Both UPDATEs run in one implicit
   transaction, so the model treats the rebind as one atomic step.
2. **The latest-message store** of the MQTT consumer (`consumidor_mqtt.py`). The
   message callback:
   - decodes the payload as UTF-8;
   - tries JSON and falls back to the raw text;
   - prints the topic, qos and payload;
   - overwrites the topic's entry.

   The lookup returns the entry, or None. The UTF-8 decoder is modelled exactly as
   Python's strict decoder behaves. It is proved inverse to a UTF-8 encoder in both
   directions. The JSON parser is a parameter with three outcomes. The clock is a
   parameter too, and so is whether standard output can encode the printed topic
   and payload.

Modules: `Wrappers` (Option, Result), `Sqlite` (64-bit range, `str()`, errors),
`Schema` (tables and invariant), `Registry` (write operations), `Queries`
(listings), `RegistryProofs` (invariant over call sequences, rebind edge cases,
scenario), `Utf8`, `Consumer`.

Three facts about the code shape the model:
- the insert functions return None, not the new id;
- the rebind is atomic because of sqlite3's implicit transaction, which is committed once at the end;
- the buzzer listing returns a list of records, each with `id`, `nome`, `lat` and `lon`.

## Model

| member | source | states |
|---|---|---|
| Schema.CreateSchema | banco_de_dados/criacao.py:3-51 | A missing database is created with four empty tables, with every id sequence at 0, and meets every schema constraint. An existing one is kept as it is, because each table is created only if it does not exist. |
| Registry.InsertRow | banco_de_dados/criacao.py:11 | AUTOINCREMENT. The insert fails with "database or disk is full" exactly when the table's sequence has reached the largest rowid. Otherwise the new id is one past the last issued id, was not in use, and is larger than every existing id. The table grows by exactly one row. |
| Registry.InsertAsset | banco_de_dados/criacao.py:55-66 | The insert fails exactly when the name is None (NOT NULL on `nome`) or the table is full. On success it adds one asset with a fresh id, the given name and the coordinates as `str()` text. The other tables are unchanged. |
| Registry.InsertCamera | banco_de_dados/criacao.py:69-80 | Same contract as the asset insert, on the cameras table. |
| Registry.AssociateCamera | banco_de_dados/criacao.py:82-93 | The call fails exactly when an id falls outside 64 bits, or when both ids are non-NULL and the pair is already linked (primary-key violation). Otherwise the link table grows by exactly that pair and nothing else changes. Pairs with a NULL id may repeat. |
| Registry.InsertBuzzer | banco_de_dados/criacao.py:96-107 | The call fails exactly when the asset id is outside 64 bits, the table is full, or another buzzer already holds that asset (UNIQUE violation). So any number of unbound buzzers can coexist, and the NOT NULL coordinates never reject. On success it adds one buzzer with a fresh id and nothing else changes. |
| Registry.ClearAsset | banco_de_dados/criacao.py:114 | Afterwards no buzzer holds the asset. Buzzers that held it lose only their asset. Every other buzzer is untouched. A NULL asset matches no row. |
| Registry.SetAsset | banco_de_dados/criacao.py:117 | Setting the asset of one buzzer fails exactly when another buzzer already holds that asset. On success only that buzzer's asset changes. A missing or NULL buzzer id changes nothing. |
| Registry.Rebind | banco_de_dados/criacao.py:109-121 | The rebind never trips UNIQUE: it fails only on an id outside 64 bits, and then, as one transaction, it leaves everything unchanged. On success the buzzer holds the asset and no other buzzer does. The previous holder becomes unbound. Every other buzzer, every coordinate, asset, camera and link, and the id sequence are unchanged. |
| RegistryProofs.InsertBuzzerPreservesValid | banco_de_dados/criacao.py:96-107 | A buzzer insert keeps the one-buzzer-per-asset invariant and the id invariants. |
| RegistryProofs.RebindPreservesValid | banco_de_dados/criacao.py:109-121 | The rebind keeps the one-buzzer-per-asset invariant. |
| RegistryProofs.ApplyPreservesValid | banco_de_dados/criacao.py:29-47 | Every write operation keeps the schema's guarantees: unique non-NULL links, one buzzer per asset, and ids within their sequence. |
| RegistryProofs.RunPreservesValid | banco_de_dados/criacao.py:55-121 | Every sequence of write calls keeps those guarantees. |
| RegistryProofs.ReachableIsValid | banco_de_dados/criacao.py:3-51 | Every state reached from the created schema through any sequence of calls satisfies them. |
| RegistryProofs.RebindToNull | banco_de_dados/criacao.py:113-117 | With a None asset and a buzzer id within 64 bits, the rebind always succeeds, and the only change is that the buzzer becomes unbound. If the buzzer does not exist, nothing changes. |
| RegistryProofs.RebindMissingBuzzer | banco_de_dados/criacao.py:113-117 | With a buzzer id that does not exist, the only effect is that the asset loses its buzzer. |
| RegistryProofs.RebindIdempotent | banco_de_dados/criacao.py:109-121 | Repeating the same rebind changes nothing. |
| RegistryProofs.QueriesAgree | banco_de_dados/criacao.py:150-155 | The asset listing reports buzzer b under asset a exactly when the buzzer listing has b and b references a. In that case the buzzer's record carries a's name. |
| RegistryProofs.ListingOneToOne | banco_de_dados/criacao.py:176-204 | In a valid state, no two records of the buzzer listing come from the same asset. |
| RegistryProofs.RebindSeenByQueries | banco_de_dados/criacao.py:109-121 | After rebinding an existing buzzer to an existing asset, both listings show the buzzer on that asset, and no other buzzer record references it. |
| RegistryProofs.FreshSchemaIssuesOne | banco_de_dados/criacao.py:9-46 | In a freshly created schema, the first asset, the first camera and the first buzzer each get id 1, which is what the example calls `associar_camera_ativo(1, 1)` and `vincular_buzzer_ativo(1, 1)` rely on. |
| RegistryProofs.ScenarioRebindTwice | banco_de_dados/criacao.py:215-235 | A constructed scenario reusing the example calls at lines 215, 216, 230 and 235: insert EMAP and Granel Química, insert one unbound buzzer, bind it to asset 1 and then to asset 2. The buzzer listing then holds exactly one record, named Granel Química with its coordinates, and EMAP has no buzzer. |
| Queries.BuzzerOf | banco_de_dados/criacao.py:151-152 | The lookup finds a buzzer exactly when some buzzer is bound to the asset, and the buzzer it returns is bound to that asset. Under the UNIQUE constraint it is the only such buzzer, so `fetchone` is deterministic. |
| Queries.CamerasOf | banco_de_dados/criacao.py:137-143 | The inner join yields a camera exactly when it exists and is linked to the asset, reported with the camera's own name (`c.nome`). Links to missing cameras drop out. |
| Queries.AssetsWithDevices | banco_de_dados/criacao.py:124-157 | The listing has one entry per asset, carrying the asset's name. A camera appears under an asset exactly when it exists and is linked to it, and it is reported with the camera's name. A buzzer is reported exactly when it is bound to the asset. |
| Queries.JoinOf | banco_de_dados/criacao.py:176-188 | The join row of a bound buzzer carries its id. Its asset columns are the referenced asset's name and coordinates when that asset exists, and all NULL otherwise (LEFT JOIN). |
| Queries.JoinRows | banco_de_dados/criacao.py:176-188 | The query returns a row for every buzzer with a non-NULL asset and no other rows, and the buzzer id determines the row, so no buzzer appears twice. |
| Queries.Present | banco_de_dados/criacao.py:199-200 | A coordinate is absent exactly when the stored text is NULL or empty. Otherwise it is the stored text. |
| Queries.BuzzersWithAssets | banco_de_dados/criacao.py:176-188 | There is exactly one record per buzzer with a non-NULL asset, with `id` equal to the buzzer id. Name and coordinates come from the referenced asset. All three are absent when that asset does not exist, because of the LEFT JOIN. |
| Queries.ListBuzzersWithAssets | banco_de_dados/criacao.py:190-204 | Building the result from the fetched rows, in any order, gives exactly that set of records. |
| Utf8.DecodeFirst | consumidor_mqtt.py:40 | A well-formed UTF-8 head is one to four bytes long and never runs past the input. |
| Utf8.EncodeChar | mqtt.py:66-69 | A character published as text is encoded in one to four bytes, the length fixed by its code point range (below U+0080, U+0800, U+10000). The first byte is never a continuation byte and every following byte is one. |
| Utf8.Encode | mqtt.py:66-69 | A text of n characters is encoded in between n and 4n bytes, one character after another. |
| Utf8.Decode | consumidor_mqtt.py:40 | A payload that decodes never yields more characters than it has bytes. |
| Utf8.DecodeEncode | consumidor_mqtt.py:40 | Every text that is encoded as UTF-8 decodes back to itself. |
| Utf8.EncodeDecode | consumidor_mqtt.py:40 | Every payload that decodes is exactly the encoding of the text it decodes to, so decoding loses nothing. |
| Utf8.DecodesExactlyEncodings | consumidor_mqtt.py:40 | A payload decodes to a text exactly when it is that text's UTF-8 encoding. |
| Utf8.OverlongAndSurrogateRejected | consumidor_mqtt.py:40 | Overlong two-byte forms and encoded surrogates raise, as in Python's strict decoder. |
| Consumer.DecodePayload | consumidor_mqtt.py:39-42 | The call raises UnicodeDecodeError exactly when the payload is not the UTF-8 encoding of any text. For the text it does encode, the result is the JSON value if the text parses, the text itself if parsing raises JSONDecodeError, and a raised error if the parser throws anything else. |
| Consumer.Process | consumidor_mqtt.py:37-55 | An entry is built exactly when decoding succeeds, standard output can print the topic and payload, and `time` is bound. A decoding error is reported as such; a message that decodes but cannot be printed raises UnicodeEncodeError before the clock is read. The entry carries the decoded payload, the message's qos and retain, and the clock reading. |
| Consumer.LatestMessage | consumidor_mqtt.py:101 | The lookup returns None exactly when the topic has no entry, and otherwise returns the stored entry. |
| Consumer.OnMessage | consumidor_mqtt.py:35-58 | After a successfully processed message, the lookup on its topic returns the new entry, replacing any earlier one. If processing raised, the store is unchanged. Every other topic keeps its entry. |
| Consumer.OnMessageTimed | consumidor_mqtt.py:50-55 | With `time` bound, every message that decodes and can be printed is stored under its topic with the given timestamp. A message that does not decode, or cannot be printed, leaves the store unchanged. |
| Consumer.ImportedConsumerStoresNothing | consumidor_mqtt.py:54 | When `time` is unbound, no sequence of deliveries changes the store. |
| Consumer.ReplayKeepsLatest | consumidor_mqtt.py:50-55 | After any sequence of deliveries, the lookup returns the entry of the last message on the topic that was processed without raising. If there was none, it returns what was stored before. |
| Consumer.NoEntryWithoutMessage | consumidor_mqtt.py:91-101 | Starting from the empty store, the lookup returns None exactly when no message on the topic was processed without raising. |
| Consumer.LaterMessageWins | consumidor_mqtt.py:50 | A later successful message on the same topic leaves no trace of an earlier one. |
| Consumer.DistinctTopicsCommute | consumidor_mqtt.py:50 | Messages on different topics can be handled in either order with the same result. |
| Consumer.PublishedTextIsStored | consumidor_mqtt.py:39-42 | A published text is stored as the parsed value when `loads` parses it, and as the text itself whenever `loads` raises JSONDecodeError. If standard output cannot print it, the topic keeps its earlier entry. |
| Consumer.TrueIsStoredAsText | consumidor_mqtt.py:39-42 | Given that `loads` raises JSONDecodeError on "True" (as Python's `json.loads` does, since JSON spells the boolean `true`), a published "True" is stored as the text "True". |
| Consumer.UnprintableMessageDropped | consumidor_mqtt.py:44-58 | A message that decodes but whose topic or payload standard output cannot encode raises UnicodeEncodeError at the prints, before the store update. The handler swallows it and the store is unchanged. |
| Consumer.StructuredPayloadRoundTrip | consumidor_mqtt.py:39-42 | A structured payload serialised by the publisher is stored as the same structure, provided serialiser and parser round-trip and standard output can print it. |
| Consumer.MalformedPayloadIgnored | consumidor_mqtt.py:37-58 | A payload that is not UTF-8 never reaches the store. |

## Findings

| source | as written | input that shows it | evidently intended | confidence | as-written member | corrected member |
|---|---|---|---|---|---|---|
| consumidor_mqtt.py:54 | `time.time()` is called, but `time` is imported only under the `__main__` guard (line 106) | Any message delivered to a consumer whose module was imported by another program. The NameError is caught and printed, so nothing is ever stored. | Import `time` at module level so that every message that decodes and prints is stored | high; not executed | Consumer.ImportedConsumerStoresNothing | Consumer.OnMessageTimed |

## Left out

- The `print` in the callback's own handler (consumidor_mqtt.py:58): its message is the exception's text, which is not modelled, so it is assumed to print. The four prints before the store update are modelled (Consumer.Process).
- Connections, I/O failures and `print` output: opening and closing the database file, StorageError on I/O, and the messages each function prints. Each function opens its own connection and runs in isolation from the others.
- A missing schema: the operations are modelled only on a database whose four tables already exist. On a fresh file, `sqlite3.connect` creates an empty database and every statement raises `OperationalError: no such table`. The code can reach this path: the only call to `criar_esquema_completo` (banco_de_dados/criacao.py:209) sits inside the string literal at lines 208-239, and mapa.py:18 calls `listar_buzzers_com_ativos()` when the module is imported. `Schema.CreateSchema` models schema creation itself.
- Foreign keys: the `ON DELETE CASCADE` and `SET NULL` clauses are declared, but SQLite does not enforce foreign keys unless a connection enables them, and no connection here does. The code also has no delete operation. Ids in links and buzzers are therefore unchecked integers, and no deletion is modelled.
- Python argument types other than None and `str` for names and coordinates: ints, floats and other objects. Their `str()` formatting and SQLite's type affinity are not modelled. Ids are modelled as Python ints or None.
- Queries.BuzzersWithAssets: coordinates are kept as text, and the `float()` conversion at banco_de_dados/criacao.py:199-200 is not modelled, because it is floating point. One consequence is not covered: stored text that is not numeric, such as "None", written when `inserir_ativo` receives None coordinates, makes the real listing raise ValueError.
- Queries.ListBuzzersWithAssets: returns the records keyed by buzzer id, not as a list. Row order is unspecified without ORDER BY, so the order of the list is not modelled.
- Queries.AssetsWithDevices: the Python function prints its findings and returns None. The model returns what it prints. It requires the one-buzzer-per-asset invariant, which every reachable state satisfies (RegistryProofs.ReachableIsValid), because `fetchone` is then deterministic.
- Registry.InsertAsset: when both the name is None and the table is full, the model reports the full table. This reflects SQLite drawing the rowid before it runs the NOT NULL check. The contract states only that the call fails.
- The JSON parser and serialiser are parameters, not a JSON implementation. `json.loads` has three outcomes: a value, JSONDecodeError, or another exception such as RecursionError.
- The MQTT connection, subscription, callback thread and lock-free sharing of the store (consumidor_mqtt.py:60-89). The publisher wrapper (mqtt.py) is not modelled either, except that its text payloads reach the consumer UTF-8 encoded (Utf8.Encode). `conectar` also calls `time.sleep` and so returns False when the module is imported. That is the same cause as the finding above, and it is not modelled.
- The map and dashboard pages and the camera/detection scripts: these are UI and vision code outside the two cores.

=== FILE: consumer.dfy ===
/**
 The latest-message store of the MQTT consumer: the message callback
 decodes a payload and records it under its topic, and the lookup returns
 what is recorded. The broker connection, subscriptions and the callback
 thread are outside the model; the JSON parser, the clock and what standard
 output can encode are parameters.
 */
module Consumer {
  import opened Wrappers
  import Utf8

  /** A delivered message as the broker client hands it to the callback. */
  datatype Message = Message(topic: string, payload: seq<Utf8.byte>, qos: nat, retain: bool)

  /** What `json.loads` does with a text: a value, JSONDecodeError, or another exception (RecursionError on deep nesting). */
  datatype JsonOutcome<J> = Parsed(value: J) | JsonDecodeError | OtherError

  /** The stored payload: the parsed JSON value, or the text itself when it is not JSON. */
  datatype Payload<J> = Json(value: J) | Raw(text: string)

  /** One entry of the store: the keys `payload`, `qos`, `retain` and `timestamp`. */
  datatype Entry<J> = Entry(payload: Payload<J>, qos: nat, retain: bool, timestamp: real)

  /**
   The `time` module as the callback finds it: bound to the current time
   when the file runs as a script, unbound when it is imported, since the
   import sits under the `__main__` guard.
   */
  datatype Clock = Unbound | Now(seconds: real)

  /**
   Whether standard output can encode the lines the callback prints for a
   message: its topic and its payload. When it cannot, `print` raises
   UnicodeEncodeError (a lone surrogate in a JSON string, or a character
   outside the code page when output is redirected).
   */
  type Console<!J> = (string, Payload<J>) -> bool

  /** The exceptions the callback catches, prints and drops. */
  datatype Raised = UnicodeDecodeError | LoadsError | UnicodeEncodeError | NameError

  /** The last stored entry per topic (`ultimas_mensagens`). */
  type Store<J> = map<string, Entry<J>>

  /**
   Decode the payload as UTF-8, then try JSON; on JSONDecodeError fall back
   to the text. Other exceptions escape the inner handler.
   */
  function DecodePayload<J>(payload: seq<Utf8.byte>, loads: string -> JsonOutcome<J>): (r: Result<Payload<J>, Raised>)
    ensures r == Failure(UnicodeDecodeError) <==> forall text :: Utf8.Encode(text) != payload
    ensures forall text :: Utf8.Encode(text) == payload ==>
      match loads(text)
      case Parsed(v) => r == Success(Json(v))
      case JsonDecodeError => r == Success(Raw(text))
      case OtherError => r == Failure(LoadsError)
  {
    Utf8.DecodesExactlyEncodings(payload);
    match Utf8.Decode(payload)
    case None => Failure(UnicodeDecodeError)
    case Some(text) =>
      Utf8.EncodeDecode(payload);
      match loads(text)
      case Parsed(v) => Success(Json(v))
      case JsonDecodeError => Success(Raw(text))
      case OtherError => Failure(LoadsError)
  }

  /**
   The entry the callback builds for a message, or the exception it hits
   first: decoding, then the four prints, then reading the clock.
   */
  function Process<J>(msg: Message, loads: string -> JsonOutcome<J>, echoes: Console<J>, clock: Clock): (r: Result<Entry<J>, Raised>)
    ensures r.Success? <==>
      DecodePayload(msg.payload, loads).Success? && echoes(msg.topic, DecodePayload(msg.payload, loads).value) && clock.Now?
    ensures DecodePayload(msg.payload, loads).Failure? ==> r == Failure(DecodePayload(msg.payload, loads).error)
    ensures DecodePayload(msg.payload, loads).Success? && !echoes(msg.topic, DecodePayload(msg.payload, loads).value) ==>
      r == Failure(UnicodeEncodeError)
    ensures r.Success? ==>
      && r.value.payload == DecodePayload(msg.payload, loads).value
      && r.value.qos == msg.qos && r.value.retain == msg.retain
      && r.value.timestamp == clock.seconds
  {
    match DecodePayload(msg.payload, loads)
    case Failure(e) => Failure(e)
    case Success(p) =>
      if !echoes(msg.topic, p) then Failure(UnicodeEncodeError)
      else if clock.Unbound? then Failure(NameError)
      else Success(Entry(p, msg.qos, msg.retain, clock.seconds))
  }

  /** `obter_ultima_mensagem`: the stored entry of a topic, or None. */
  function LatestMessage<J>(store: Store<J>, topic: string): (r: Option<Entry<J>>)
    ensures r.None? <==> topic !in store
    ensures r.Some? ==> r.value == store[topic]
  {
    if topic in store then Some(store[topic]) else None
  }

  /**
   `_on_message`: overwrite the topic's entry with the processed message;
   if processing raised, the exception is printed and the store kept.
   */
  function OnMessage<J>(store: Store<J>, msg: Message, loads: string -> JsonOutcome<J>, echoes: Console<J>, clock: Clock): (r: Store<J>)
    ensures Process(msg, loads, echoes, clock).Success? ==>
      LatestMessage(r, msg.topic) == Some(Process(msg, loads, echoes, clock).value)
    ensures Process(msg, loads, echoes, clock).Failure? ==> r == store
    ensures forall t :: t != msg.topic ==> LatestMessage(r, t) == LatestMessage(store, t)
    ensures r.Keys == store.Keys + (if Process(msg, loads, echoes, clock).Success? then {msg.topic} else {})
  {
    match Process(msg, loads, echoes, clock)
    case Success(entry) => store[msg.topic := entry]
    case Failure(_) => store
  }

  /**
   The handler with `time` imported at module level, as evidently intended:
   the clock always reads, so every message that decodes and prints is stored.
   */
  function OnMessageTimed<J>(store: Store<J>, msg: Message, loads: string -> JsonOutcome<J>, echoes: Console<J>, now: real): (r: Store<J>)
    ensures DecodePayload(msg.payload, loads).Success? && echoes(msg.topic, DecodePayload(msg.payload, loads).value) ==>
      LatestMessage(r, msg.topic) == Some(Entry(DecodePayload(msg.payload, loads).value, msg.qos, msg.retain, now))
    ensures DecodePayload(msg.payload, loads).Failure? ==> r == store
    ensures DecodePayload(msg.payload, loads).Success? && !echoes(msg.topic, DecodePayload(msg.payload, loads).value) ==> r == store
    ensures forall t :: t != msg.topic ==> LatestMessage(r, t) == LatestMessage(store, t)
  {
    OnMessage(store, msg, loads, echoes, Now(now))
  }

  /** A message together with what the clock read when it arrived. */
  datatype Delivery = Delivery(msg: Message, clock: Clock)

  /** The store after handling a sequence of deliveries in order. */
  function Replay<J>(store: Store<J>, deliveries: seq<Delivery>, loads: string -> JsonOutcome<J>, echoes: Console<J>): Store<J>
    decreases |deliveries|
  {
    if deliveries == [] then store
    else
      var last := deliveries[|deliveries| - 1];
      OnMessage(Replay(store, deliveries[..|deliveries| - 1], loads, echoes), last.msg, loads, echoes, last.clock)
  }

  /**
   As written, a consumer whose module was imported rather than run finds
   `time` unbound: every delivery raises NameError and the store never changes.
   */
  lemma {:induction false} ImportedConsumerStoresNothing<J>(store: Store<J>, deliveries: seq<Delivery>, loads: string -> JsonOutcome<J>, echoes: Console<J>)
    requires forall i :: 0 <= i < |deliveries| ==> deliveries[i].clock.Unbound?
    ensures Replay(store, deliveries, loads, echoes) == store
    decreases |deliveries|
  {
    if deliveries != [] {
      ImportedConsumerStoresNothing(store, deliveries[..|deliveries| - 1], loads, echoes);
    }
  }

  /** Reference definition: the entry of the last delivery on `topic` that was processed without raising. */
  function LastProcessed<J>(deliveries: seq<Delivery>, topic: string, loads: string -> JsonOutcome<J>, echoes: Console<J>): Option<Entry<J>>
    decreases |deliveries|
  {
    if deliveries == [] then None
    else
      var last := deliveries[|deliveries| - 1];
      var r := Process(last.msg, loads, echoes, last.clock);
      if last.msg.topic == topic && r.Success? then Some(r.value)
      else LastProcessed(deliveries[..|deliveries| - 1], topic, loads, echoes)
  }

  /**
   After any sequence of deliveries, the lookup returns the entry of the
   last successfully processed message on the topic, or, if there was
   none, whatever the store held before.
   */
  lemma {:induction false} ReplayKeepsLatest<J>(store: Store<J>, deliveries: seq<Delivery>, loads: string -> JsonOutcome<J>, echoes: Console<J>, topic: string)
    ensures LatestMessage(Replay(store, deliveries, loads, echoes), topic) ==
      if LastProcessed(deliveries, topic, loads, echoes).Some? then LastProcessed(deliveries, topic, loads, echoes)
      else LatestMessage(store, topic)
    decreases |deliveries|
  {
    if deliveries != [] {
      ReplayKeepsLatest(store, deliveries[..|deliveries| - 1], loads, echoes, topic);
    }
  }

  /** Reference definition is None exactly when no delivery on the topic went through. */
  lemma {:induction false} LastProcessedNone<J>(deliveries: seq<Delivery>, topic: string, loads: string -> JsonOutcome<J>, echoes: Console<J>)
    ensures LastProcessed(deliveries, topic, loads, echoes).None? <==>
      forall i :: 0 <= i < |deliveries| && deliveries[i].msg.topic == topic ==>
        Process(deliveries[i].msg, loads, echoes, deliveries[i].clock).Failure?
    decreases |deliveries|
  {
    if deliveries != [] {
      var front := deliveries[..|deliveries| - 1];
      LastProcessedNone(front, topic, loads, echoes);
      assert forall i :: 0 <= i < |front| ==> front[i] == deliveries[i];
    }
  }

  /** Starting empty, a topic has no entry until a message on it is processed without raising. */
  lemma NoEntryWithoutMessage<J>(deliveries: seq<Delivery>, loads: string -> JsonOutcome<J>, echoes: Console<J>, topic: string)
    ensures LatestMessage(Replay(map[], deliveries, loads, echoes), topic).None? <==>
      forall i :: 0 <= i < |deliveries| && deliveries[i].msg.topic == topic ==>
        Process(deliveries[i].msg, loads, echoes, deliveries[i].clock).Failure?
  {
    ReplayKeepsLatest(map[], deliveries, loads, echoes, topic);
    LastProcessedNone(deliveries, topic, loads, echoes);
  }

  /** A later message on the same topic erases every trace of an earlier one. */
  lemma LaterMessageWins<J>(store: Store<J>, first: Message, second: Message, loads: string -> JsonOutcome<J>, echoes: Console<J>, c1: Clock, c2: Clock)
    requires first.topic == second.topic
    requires Process(second, loads, echoes, c2).Success?
    ensures OnMessage(OnMessage(store, first, loads, echoes, c1), second, loads, echoes, c2) == OnMessage(store, second, loads, echoes, c2)
  {
  }

  /** Messages on different topics do not interfere: handling order does not matter. */
  lemma DistinctTopicsCommute<J>(store: Store<J>, m1: Message, m2: Message, loads: string -> JsonOutcome<J>, echoes: Console<J>, c1: Clock, c2: Clock)
    requires m1.topic != m2.topic
    ensures OnMessage(OnMessage(store, m1, loads, echoes, c1), m2, loads, echoes, c2) ==
      OnMessage(OnMessage(store, m2, loads, echoes, c2), m1, loads, echoes, c1)
  {
  }

  /**
   A text published on a topic (and so encoded as UTF-8) is stored as the
   parsed value when it parses, and as the text itself whenever `loads`
   raises JSONDecodeError; provided standard output can print it, else the
   store keeps what it had.
   */
  lemma PublishedTextIsStored<J>(store: Store<J>, topic: string, text: string, qos: nat, retain: bool, loads: string -> JsonOutcome<J>, echoes: Console<J>, now: real)
    requires !loads(text).OtherError?
    ensures
      var payload := if loads(text).Parsed? then Json(loads(text).value) else Raw(text);
      var after := OnMessageTimed(store, Message(topic, Utf8.Encode(text), qos, retain), loads, echoes, now);
      LatestMessage(after, topic) ==
        if echoes(topic, payload) then Some(Entry(payload, qos, retain, now)) else LatestMessage(store, topic)
  {
    Utf8.DecodeEncode(text);
  }

  /**
   Python's `json.loads` raises JSONDecodeError on the text "True" (JSON
   spells the boolean `true`), so a published "True" is stored as text.
   */
  lemma TrueIsStoredAsText<J>(store: Store<J>, topic: string, qos: nat, retain: bool, loads: string -> JsonOutcome<J>, echoes: Console<J>, now: real)
    requires loads("True") == JsonDecodeError
    requires echoes(topic, Raw("True"))
    ensures LatestMessage(OnMessageTimed(store, Message(topic, Utf8.Encode("True"), qos, retain), loads, echoes, now), topic)
      == Some(Entry(Raw("True"), qos, retain, now))
  {
    PublishedTextIsStored(store, topic, "True", qos, retain, loads, echoes, now);
  }

  /**
   A message that decodes but cannot be printed (a JSON string holding a
   lone surrogate, say) raises before the store update and is dropped.
   */
  lemma UnprintableMessageDropped<J>(store: Store<J>, msg: Message, loads: string -> JsonOutcome<J>, echoes: Console<J>, clock: Clock)
    requires DecodePayload(msg.payload, loads).Success?
    requires !echoes(msg.topic, DecodePayload(msg.payload, loads).value)
    ensures Process(msg, loads, echoes, clock) == Failure(UnicodeEncodeError)
    ensures OnMessage(store, msg, loads, echoes, clock) == store
  {
  }

  /**
   A structured payload serialised by the publisher comes back as the same
   structure, provided the serialiser and `json.loads` round-trip.
   */
  lemma StructuredPayloadRoundTrip<J>(store: Store<J>, topic: string, value: J, dumps: J -> string, loads: string -> JsonOutcome<J>, echoes: Console<J>, qos: nat, retain: bool, now: real)
    requires loads(dumps(value)) == Parsed(value)
    requires echoes(topic, Json(value))
    ensures LatestMessage(OnMessageTimed(store, Message(topic, Utf8.Encode(dumps(value)), qos, retain), loads, echoes, now), topic)
      == Some(Entry(Json(value), qos, retain, now))
  {
    PublishedTextIsStored(store, topic, dumps(value), qos, retain, loads, echoes, now);
  }

  /** A payload that is not UTF-8 never reaches the store. */
  lemma MalformedPayloadIgnored<J>(store: Store<J>, msg: Message, loads: string -> JsonOutcome<J>, echoes: Console<J>, clock: Clock)
    requires Utf8.Decode(msg.payload).None?
    ensures OnMessage(store, msg, loads, echoes, clock) == store
  {
  }
}

=== FILE: queries.dfy ===
/**
 The two read-only queries of the registry. Both read the tables and change
 nothing; row order is left unspecified, so results are maps keyed by id.
 */
module Queries {
  import opened Wrappers
  import opened Schema

  /** One asset as `listar_ativos_com_dispositivos` reports it: its linked cameras (id to name) and its buzzer. */
  datatype AssetDevices = AssetDevices(name: string, cameras: map<int, string>, buzzer: Option<int>)

  /** A row of the buzzer/asset LEFT JOIN: the asset columns are NULL when the asset id matches no asset. */
  datatype JoinRow = JoinRow(buzzer: int, name: Option<string>, latitude: Option<string>, longitude: Option<string>)

  /** A record of `listar_buzzers_com_ativos` (keys `id`, `nome`, `lat`, `lon`). */
  datatype BuzzerView = BuzzerView(id: int, name: Option<string>, latitude: Option<string>, longitude: Option<string>)

  /**
   `SELECT id FROM buzzers WHERE ativo_id = ?` and `fetchone()`: the buzzer
   bound to the asset, if any. The UNIQUE constraint makes it the only one.
   */
  function BuzzerOf(buzzers: map<int, Buzzer>, asset: int): (r: Option<int>)
    requires OneBuzzerPerAsset(buzzers)
    ensures r.Some? <==> Held(buzzers, asset)
    ensures r.Some? ==> r.value in buzzers && buzzers[r.value].asset == Some(asset)
    ensures forall b :: b in buzzers && buzzers[b].asset == Some(asset) ==> r == Some(b)
  {
    if Held(buzzers, asset) then
      var b :| b in buzzers && buzzers[b].asset == Some(asset);
      Some(b)
    else None
  }

  /** The cameras joined to an asset through its links; dangling camera ids drop out of the inner join. */
  function CamerasOf(db: Db, asset: int): (r: map<int, string>)
    ensures forall c :: c in r <==> c in db.cameras.rows && Link(Some(asset), Some(c)) in db.links
    ensures forall c :: c in r ==> r[c] == db.cameras.rows[c].name
  {
    map c | c in db.cameras.rows && Link(Some(asset), Some(c)) in db.links :: db.cameras.rows[c].name
  }

  /** `listar_ativos_com_dispositivos`: every asset with its cameras and at most one buzzer. */
  function AssetsWithDevices(db: Db): (r: map<int, AssetDevices>)
    requires OneBuzzerPerAsset(db.buzzers.rows)
    ensures r.Keys == db.assets.rows.Keys
    ensures forall a :: a in r ==> r[a].name == db.assets.rows[a].name
    ensures forall a, c :: a in r && c in r[a].cameras <==>
      a in db.assets.rows && c in db.cameras.rows && Link(Some(a), Some(c)) in db.links
    ensures forall a, c :: a in r && c in r[a].cameras ==> r[a].cameras[c] == db.cameras.rows[c].name
    ensures forall a, b :: a in r && r[a].buzzer == Some(b) <==>
      a in db.assets.rows && b in db.buzzers.rows && db.buzzers.rows[b].asset == Some(a)
  {
    map a | a in db.assets.rows ::
      AssetDevices(db.assets.rows[a].name, CamerasOf(db, a), BuzzerOf(db.buzzers.rows, a))
  }

  /** `float(x) if x else None`, keeping the text: NULL and the empty string are both absent. */
  function Present(text: Option<string>): (r: Option<string>)
    ensures r.None? <==> text.None? || text.value == []
    ensures r.Some? ==> r == text
  {
    if text.Some? && text.value != [] then text else None
  }

  /** The join row of a bound buzzer. */
  function JoinOf(db: Db, b: int): (row: JoinRow)
    requires b in db.buzzers.rows && db.buzzers.rows[b].asset.Some?
    ensures row.buzzer == b
    ensures row.name.Some? <==> db.buzzers.rows[b].asset.value in db.assets.rows
    ensures row.name.Some? ==>
      var asset := db.assets.rows[db.buzzers.rows[b].asset.value];
      row.name == Some(asset.name) && row.latitude == asset.latitude && row.longitude == asset.longitude
    ensures row.name.None? ==> row.latitude.None? && row.longitude.None?
  {
    var a := db.buzzers.rows[b].asset.value;
    if a in db.assets.rows then
      JoinRow(b, Some(db.assets.rows[a].name), db.assets.rows[a].latitude, db.assets.rows[a].longitude)
    else JoinRow(b, None, None, None)
  }

  /**
   `SELECT b.id, a.nome, a.latitude, a.longitude FROM buzzers b
    LEFT JOIN ativos a ON b.ativo_id = a.id WHERE b.ativo_id IS NOT NULL`
   */
  function JoinRows(db: Db): (rows: set<JoinRow>)
    ensures forall b :: b in db.buzzers.rows && db.buzzers.rows[b].asset.Some? ==> JoinOf(db, b) in rows
    ensures forall row :: row in rows ==>
      row.buzzer in db.buzzers.rows && db.buzzers.rows[row.buzzer].asset.Some? && row == JoinOf(db, row.buzzer)
    ensures forall r1, r2 :: r1 in rows && r2 in rows && r1.buzzer == r2.buzzer ==> r1 == r2
  {
    set b | b in db.buzzers.rows && db.buzzers.rows[b].asset.Some? :: JoinOf(db, b)
  }

  /** The record built from one join row. */
  function ToView(row: JoinRow): BuzzerView {
    BuzzerView(row.buzzer, row.name, Present(row.latitude), Present(row.longitude))
  }

  /**
   What `listar_buzzers_com_ativos` returns: one record per bound buzzer,
   named and placed after the asset it references.
   */
  function BuzzersWithAssets(db: Db): (r: map<int, BuzzerView>)
    ensures forall b :: b in r <==> b in db.buzzers.rows && db.buzzers.rows[b].asset.Some?
    ensures forall b :: b in r ==> r[b].id == b
    ensures forall b :: b in r && db.buzzers.rows[b].asset.value in db.assets.rows ==>
      var asset := db.assets.rows[db.buzzers.rows[b].asset.value];
      && r[b].name == Some(asset.name)
      && r[b].latitude == Present(asset.latitude)
      && r[b].longitude == Present(asset.longitude)
    ensures forall b :: b in r && db.buzzers.rows[b].asset.value !in db.assets.rows ==>
      r[b].name.None? && r[b].latitude.None? && r[b].longitude.None?
  {
    map b | b in db.buzzers.rows && db.buzzers.rows[b].asset.Some? :: ToView(JoinOf(db, b))
  }

  /**
   The loop of `listar_buzzers_com_ativos` over the fetched rows, in whatever
   order the engine returns them: each row becomes a record keyed by its
   buzzer id, and the records are the answer.
   */
  method ListBuzzersWithAssets(db: Db, rows: seq<JoinRow>) returns (result: map<int, BuzzerView>)
    requires forall row :: row in rows <==> row in JoinRows(db)
    ensures result == BuzzersWithAssets(db)
  {
    result := map[];
    var i := 0;
    while i < |rows|
      invariant 0 <= i <= |rows|
      invariant forall j :: 0 <= j < i ==> rows[j].buzzer in result
      invariant forall b :: b in result ==>
        b in db.buzzers.rows && db.buzzers.rows[b].asset.Some? && result[b] == ToView(JoinOf(db, b))
    {
      var row := rows[i];
      assert row in JoinRows(db);
      result := result[row.buzzer := ToView(row)];
      i := i + 1;
    }
    forall b | b in db.buzzers.rows && db.buzzers.rows[b].asset.Some?
      ensures b in result
    {
      assert JoinOf(db, b) in JoinRows(db);
      var j :| 0 <= j < |rows| && rows[j] == JoinOf(db, b);
    }
    var expected := BuzzersWithAssets(db);
    assert forall b :: b in result <==> b in expected;
    assert result.Keys == expected.Keys;
  }
}

=== FILE: registry.dfy ===
/**
 The write operations of the registry, each as one state transition.
 A `Failure` is the exception the Python function raises: the statement is
 rolled back and nothing is committed, so the database keeps its prior state
 (see `Commit`).
 */
module Registry {
  import opened Wrappers
  import opened Sqlite
  import opened Schema

  /** The state a caller observes after an operation: the new one, or the old one if it raised. */
  function Commit(db: Db, r: Result<Db, DbError>): (after: Db)
    ensures r.Failure? ==> after == db
    ensures r.Success? ==> after == r.value
  {
    if r.Success? then r.value else db
  }

  /** One INSERT into an AUTOINCREMENT table. */
  function InsertRow<R>(t: Table<R>, row: R): (r: Result<Table<R>, DbError>)
    ensures r.Failure? <==> t.issued >= MaxRowId
    ensures r.Failure? ==> r.error == OperationalError(FullMessage)
    ensures r.Success? ==> r.value.issued == t.NextId() && r.value.rows == t.rows[t.NextId() := row]
    ensures r.Success? && t.Valid() ==> r.value.Valid() && t.NextId() !in t.rows
    ensures r.Success? && t.Valid() ==> forall id :: id in t.rows ==> id < r.value.issued
    ensures r.Success? && t.Valid() ==> |r.value.rows| == |t.rows| + 1
  {
    if t.issued >= MaxRowId then Failure(OperationalError(FullMessage))
    else Success(Table(t.rows[t.NextId() := row], t.NextId()))
  }

  /** `inserir_ativo`: the name is bound as given, the coordinates through `str()`. */
  function InsertAsset(db: Db, name: PyValue, latitude: PyValue, longitude: PyValue): (r: Result<Db, DbError>)
    ensures r.Failure? <==> name.PyNone? || db.assets.issued >= MaxRowId
    ensures name.PyNone? && db.assets.issued < MaxRowId ==> r == Failure(IntegrityError(AssetNameNotNull))
    ensures r.Success? ==>
      && r.value.assets.rows == db.assets.rows[db.assets.NextId() := Asset(name.text, Some(Str(latitude)), Some(Str(longitude)))]
      && r.value.assets.issued == db.assets.NextId()
      && r.value.cameras == db.cameras && r.value.links == db.links && r.value.buzzers == db.buzzers
    ensures r.Success? && db.Valid() ==>
      db.assets.NextId() !in db.assets.rows && |r.value.assets.rows| == |db.assets.rows| + 1
  {
    match name
    case PyNone =>
      // the new rowid is drawn before the NOT NULL check runs
      if db.assets.issued >= MaxRowId then Failure(OperationalError(FullMessage))
      else Failure(IntegrityError(AssetNameNotNull))
    case PyText(text) =>
      match InsertRow(db.assets, Asset(text, Some(Str(latitude)), Some(Str(longitude))))
      case Failure(e) => Failure(e)
      case Success(assets) => Success(db.(assets := assets))
  }

  /** `inserir_camera`: same contract as `inserir_ativo`, on the cameras table. */
  function InsertCamera(db: Db, name: PyValue, latitude: PyValue, longitude: PyValue): (r: Result<Db, DbError>)
    ensures r.Failure? <==> name.PyNone? || db.cameras.issued >= MaxRowId
    ensures name.PyNone? && db.cameras.issued < MaxRowId ==> r == Failure(IntegrityError(CameraNameNotNull))
    ensures r.Success? ==>
      && r.value.cameras.rows == db.cameras.rows[db.cameras.NextId() := Camera(name.text, Some(Str(latitude)), Some(Str(longitude)))]
      && r.value.cameras.issued == db.cameras.NextId()
      && r.value.assets == db.assets && r.value.links == db.links && r.value.buzzers == db.buzzers
    ensures r.Success? && db.Valid() ==>
      db.cameras.NextId() !in db.cameras.rows && |r.value.cameras.rows| == |db.cameras.rows| + 1
  {
    match name
    case PyNone =>
      // the new rowid is drawn before the NOT NULL check runs
      if db.cameras.issued >= MaxRowId then Failure(OperationalError(FullMessage))
      else Failure(IntegrityError(CameraNameNotNull))
    case PyText(text) =>
      match InsertRow(db.cameras, Camera(text, Some(Str(latitude)), Some(Str(longitude))))
      case Failure(e) => Failure(e)
      case Success(cameras) => Success(db.(cameras := cameras))
  }

  /** `associar_camera_ativo`: one row into the link table, refused if the pair is already there. */
  function AssociateCamera(db: Db, asset: Option<int>, camera: Option<int>): (r: Result<Db, DbError>)
    ensures r.Failure? <==>
      || !Bindable(asset) || !Bindable(camera)
      || (asset.Some? && camera.Some? && Link(asset, camera) in db.links)
    ensures r.Failure? && Bindable(asset) && Bindable(camera) ==> r.error == IntegrityError(LinkKeyUnique)
    ensures r.Success? ==>
      && r.value.links == db.links + multiset{Link(asset, camera)}
      && r.value.assets == db.assets && r.value.cameras == db.cameras && r.value.buzzers == db.buzzers
  {
    if !Bindable(asset) || !Bindable(camera) then Failure(OverflowError)
    else if asset.Some? && camera.Some? && Link(asset, camera) in db.links then
      Failure(IntegrityError(LinkKeyUnique))
    else Success(db.(links := db.links + multiset{Link(asset, camera)}))
  }

  /** `inserir_buzzer`: coordinates through `str()`, the asset as given (None by default). */
  function InsertBuzzer(db: Db, latitude: PyValue, longitude: PyValue, asset: Option<int>): (r: Result<Db, DbError>)
    ensures r.Failure? <==>
      || !Bindable(asset)
      || db.buzzers.issued >= MaxRowId
      || (asset.Some? && Held(db.buzzers.rows, asset.value))
    ensures Bindable(asset) && db.buzzers.issued < MaxRowId && r.Failure? ==>
      r.error == IntegrityError(BuzzerAssetUnique)
    ensures r.Success? ==>
      && r.value.buzzers.rows == db.buzzers.rows[db.buzzers.NextId() := Buzzer(Str(latitude), Str(longitude), asset)]
      && r.value.buzzers.issued == db.buzzers.NextId()
      && r.value.assets == db.assets && r.value.cameras == db.cameras && r.value.links == db.links
    ensures r.Success? && db.Valid() ==>
      db.buzzers.NextId() !in db.buzzers.rows && |r.value.buzzers.rows| == |db.buzzers.rows| + 1
  {
    if !Bindable(asset) then Failure(OverflowError)
    else match InsertRow(db.buzzers, Buzzer(Str(latitude), Str(longitude), asset))
      case Failure(e) => Failure(e)
      case Success(buzzers) =>
        if asset.Some? && Held(db.buzzers.rows, asset.value) then
          Failure(IntegrityError(BuzzerAssetUnique))
        else Success(db.(buzzers := buzzers))
  }

  /**
   First statement of `vincular_buzzer_ativo`:
   `UPDATE buzzers SET ativo_id = NULL WHERE ativo_id = ?`.
   A NULL parameter compares unknown with every row and so matches none.
   */
  function ClearAsset(rows: map<int, Buzzer>, asset: Option<int>): (cleared: map<int, Buzzer>)
    ensures cleared.Keys == rows.Keys
    ensures asset.Some? ==> !Held(cleared, asset.value)
    ensures forall k :: k in rows && (asset.None? || rows[k].asset != asset) ==> cleared[k] == rows[k]
    ensures forall k :: k in rows && asset.Some? && rows[k].asset == asset ==> cleared[k] == rows[k].(asset := None)
  {
    map k | k in rows :: if asset.Some? && rows[k].asset == asset then rows[k].(asset := None) else rows[k]
  }

  /**
   Second statement of `vincular_buzzer_ativo`:
   `UPDATE buzzers SET ativo_id = ? WHERE id = ?`, checked against the UNIQUE
   constraint on the one row it touches.
   */
  function SetAsset(rows: map<int, Buzzer>, buzzer: Option<int>, asset: Option<int>): (r: Result<map<int, Buzzer>, DbError>)
    ensures r.Failure? <==>
      && buzzer.Some? && buzzer.value in rows && asset.Some?
      && exists k :: k in rows && k != buzzer.value && rows[k].asset == asset
    ensures r.Failure? ==> r.error == IntegrityError(BuzzerAssetUnique)
    ensures r.Success? && buzzer.Some? && buzzer.value in rows ==>
      r.value == rows[buzzer.value := rows[buzzer.value].(asset := asset)]
    ensures r.Success? && (buzzer.None? || buzzer.value !in rows) ==> r.value == rows
  {
    if buzzer.None? || buzzer.value !in rows then Success(rows)
    else if asset.Some? && exists k :: k in rows && k != buzzer.value && rows[k].asset == asset then
      Failure(IntegrityError(BuzzerAssetUnique))
    else Success(rows[buzzer.value := rows[buzzer.value].(asset := asset)])
  }

  /**
   `vincular_buzzer_ativo`: clear whichever buzzer holds the asset, then bind
   the buzzer to it. Both UPDATEs run in one implicit transaction committed
   at the end, so if the second raises the first is discarded as well.
   Because the clear comes first, the second statement never trips the
   UNIQUE constraint: the only way the call fails is an id outside 64 bits.
   */
  function Rebind(db: Db, buzzer: Option<int>, asset: Option<int>): (r: Result<Db, DbError>)
    ensures r.Failure? <==> !Bindable(asset) || !Bindable(buzzer)
    ensures r.Failure? ==> r.error == OverflowError
    ensures r.Success? ==>
      && r.value.assets == db.assets && r.value.cameras == db.cameras && r.value.links == db.links
      && r.value.buzzers.issued == db.buzzers.issued
      && r.value.buzzers.rows.Keys == db.buzzers.rows.Keys
    // the buzzer takes the asset, keeping its coordinates
    ensures r.Success? && buzzer.Some? && buzzer.value in db.buzzers.rows ==>
      r.value.buzzers.rows[buzzer.value] == db.buzzers.rows[buzzer.value].(asset := asset)
    // no other buzzer holds the asset afterwards
    ensures r.Success? && asset.Some? ==>
      forall k :: k in r.value.buzzers.rows && Some(k) != buzzer ==> r.value.buzzers.rows[k].asset != asset
    // the previous holder is left unbound
    ensures r.Success? && asset.Some? ==>
      forall k :: k in db.buzzers.rows && Some(k) != buzzer && db.buzzers.rows[k].asset == asset ==>
        r.value.buzzers.rows[k] == db.buzzers.rows[k].(asset := None)
    // every other buzzer is untouched
    ensures r.Success? ==>
      forall k :: k in db.buzzers.rows && Some(k) != buzzer && (asset.None? || db.buzzers.rows[k].asset != asset) ==>
        r.value.buzzers.rows[k] == db.buzzers.rows[k]
  {
    if !Bindable(asset) then Failure(OverflowError)
    else
      var cleared := ClearAsset(db.buzzers.rows, asset);
      if !Bindable(buzzer) then Failure(OverflowError)
      else match SetAsset(cleared, buzzer, asset)
        case Failure(e) => Failure(e)
        case Success(rows) => Success(db.(buzzers := db.buzzers.(rows := rows)))
  }
}

=== FILE: registry_proofs.dfy ===
/**
 Properties of the registry across operations: the schema's invariant holds
 in every reachable state, the rebind's edge cases, and what the two
 queries report after a rebind.
 */
module RegistryProofs {
  import opened Wrappers
  import opened Sqlite
  import opened Schema
  import opened Registry
  import opened Queries

  /** A call of one registry write operation, with its Python arguments. */
  datatype Call =
    | InsertAssetCall(name: PyValue, latitude: PyValue, longitude: PyValue)
    | InsertCameraCall(name: PyValue, latitude: PyValue, longitude: PyValue)
    | AssociateCall(asset: Option<int>, camera: Option<int>)
    | InsertBuzzerCall(latitude: PyValue, longitude: PyValue, boundTo: Option<int>)
    | RebindCall(buzzer: Option<int>, target: Option<int>)

  /** The state after one call; a call that raises leaves the state as it was. */
  function Apply(db: Db, call: Call): Db {
    match call
    case InsertAssetCall(n, lat, lon) => Commit(db, InsertAsset(db, n, lat, lon))
    case InsertCameraCall(n, lat, lon) => Commit(db, InsertCamera(db, n, lat, lon))
    case AssociateCall(a, c) => Commit(db, AssociateCamera(db, a, c))
    case InsertBuzzerCall(lat, lon, a) => Commit(db, InsertBuzzer(db, lat, lon, a))
    case RebindCall(b, a) => Commit(db, Rebind(db, b, a))
  }

  /** The state after a sequence of calls, in order. */
  function Run(db: Db, calls: seq<Call>): Db
    decreases |calls|
  {
    if calls == [] then db else Run(Apply(db, calls[0]), calls[1..])
  }

  lemma InsertBuzzerPreservesValid(db: Db, latitude: PyValue, longitude: PyValue, asset: Option<int>)
    requires db.Valid()
    ensures Commit(db, InsertBuzzer(db, latitude, longitude, asset)).Valid()
  {
    var r := InsertBuzzer(db, latitude, longitude, asset);
    if r.Success? {
      var rows := r.value.buzzers.rows;
      var id := db.buzzers.NextId();
      forall b1, b2 | b1 in rows && b2 in rows && b1 != b2 && rows[b1].asset.Some?
        ensures rows[b1].asset != rows[b2].asset
      {
        if (b1 == id || b2 == id) && asset.Some? {
          var other := if b1 == id then b2 else b1;
          assert other in db.buzzers.rows;
          assert !Held(db.buzzers.rows, asset.value);
          assert db.buzzers.rows[other].asset != asset;
        }
      }
    }
  }

  lemma RebindPreservesValid(db: Db, buzzer: Option<int>, asset: Option<int>)
    requires db.Valid()
    ensures Commit(db, Rebind(db, buzzer, asset)).Valid()
  {
    var r := Rebind(db, buzzer, asset);
    if r.Success? {
      var before := db.buzzers.rows;
      var rows := r.value.buzzers.rows;
      forall b1, b2 | b1 in rows && b2 in rows && b1 != b2 && rows[b1].asset.Some?
        ensures rows[b1].asset != rows[b2].asset
      {
        // each buzzer ends with its own asset, the target, or nothing
        assert rows[b1].asset == before[b1].asset || rows[b1].asset == asset;
        assert rows[b2].asset == before[b2].asset || rows[b2].asset == asset || rows[b2].asset.None?;
      }
    }
  }

  /** Every write operation keeps the schema's guarantees. */
  lemma ApplyPreservesValid(db: Db, call: Call)
    requires db.Valid()
    ensures Apply(db, call).Valid()
  {
    match call
    case InsertAssetCall(n, lat, lon) =>
    case InsertCameraCall(n, lat, lon) =>
    case AssociateCall(a, c) =>
      var r := AssociateCamera(db, a, c);
      if r.Success? {
        forall l | l in r.value.links && l.asset.Some? && l.camera.Some?
          ensures r.value.links[l] == 1
        {
          if l == Link(a, c) {
            assert l !in db.links;
          }
        }
      }
    case InsertBuzzerCall(lat, lon, a) => InsertBuzzerPreservesValid(db, lat, lon, a);
    case RebindCall(b, a) => RebindPreservesValid(db, b, a);
  }

  /**
   Starting from a newly created schema, no sequence of calls ever leaves
   two buzzers on one asset, a repeated camera link or an id beyond the
   table's sequence.
   */
  lemma {:induction false} RunPreservesValid(db: Db, calls: seq<Call>)
    requires db.Valid()
    ensures Run(db, calls).Valid()
    decreases |calls|
  {
    if calls != [] {
      ApplyPreservesValid(db, calls[0]);
      RunPreservesValid(Apply(db, calls[0]), calls[1..]);
    }
  }

  lemma ReachableIsValid(existing: Option<Db>, calls: seq<Call>)
    requires existing.Some? ==> existing.value.Valid()
    ensures Run(CreateSchema(existing), calls).Valid()
  {
    RunPreservesValid(CreateSchema(existing), calls);
  }

  /** With a NULL asset the clear matches nothing: the buzzer alone becomes unbound. */
  lemma RebindToNull(db: Db, buzzer: Option<int>)
    requires Bindable(buzzer)
    ensures Rebind(db, buzzer, None).Success?
    ensures buzzer.Some? && buzzer.value in db.buzzers.rows ==>
      Rebind(db, buzzer, None).value.buzzers.rows
        == db.buzzers.rows[buzzer.value := db.buzzers.rows[buzzer.value].(asset := None)]
    ensures buzzer.None? || buzzer.value !in db.buzzers.rows ==> Rebind(db, buzzer, None).value == db
  {
    var rows := Rebind(db, buzzer, None).value.buzzers.rows;
    if buzzer.Some? && buzzer.value in db.buzzers.rows {
      assert rows == db.buzzers.rows[buzzer.value := db.buzzers.rows[buzzer.value].(asset := None)];
    } else {
      assert rows == db.buzzers.rows;
    }
  }

  /** If the buzzer does not exist, the only effect is that the asset loses its buzzer. */
  lemma RebindMissingBuzzer(db: Db, buzzer: int, asset: int)
    requires buzzer !in db.buzzers.rows
    requires Bindable(Some(buzzer)) && Bindable(Some(asset))
    ensures var r := Rebind(db, Some(buzzer), Some(asset));
      && r.Success?
      && !Held(r.value.buzzers.rows, asset)
      && r.value.buzzers.rows.Keys == db.buzzers.rows.Keys
      && forall k :: k in db.buzzers.rows ==>
        r.value.buzzers.rows[k] ==
          if db.buzzers.rows[k].asset == Some(asset) then db.buzzers.rows[k].(asset := None) else db.buzzers.rows[k]
  {
  }

  /** Rebinding is idempotent: a second identical call changes nothing. */
  lemma RebindIdempotent(db: Db, buzzer: Option<int>, asset: Option<int>)
    requires Rebind(db, buzzer, asset).Success?
    ensures Rebind(Rebind(db, buzzer, asset).value, buzzer, asset) == Rebind(db, buzzer, asset)
  {
    var once := Rebind(db, buzzer, asset).value;
    var twice := Rebind(once, buzzer, asset).value;
    assert twice.buzzers.rows == once.buzzers.rows;
  }

  /** The two queries agree on which buzzer serves which asset. */
  lemma QueriesAgree(db: Db, asset: int, buzzer: int)
    requires db.Valid()
    requires asset in db.assets.rows
    ensures AssetsWithDevices(db)[asset].buzzer == Some(buzzer) <==>
      buzzer in BuzzersWithAssets(db) && db.buzzers.rows[buzzer].asset == Some(asset)
    ensures AssetsWithDevices(db)[asset].buzzer == Some(buzzer) ==>
      BuzzersWithAssets(db)[buzzer].name == Some(AssetsWithDevices(db)[asset].name)
  {
  }

  /** In a valid state no two records of the buzzer listing come from the same asset. */
  lemma ListingOneToOne(db: Db, b1: int, b2: int)
    requires db.Valid()
    requires b1 in BuzzersWithAssets(db) && b2 in BuzzersWithAssets(db) && b1 != b2
    ensures db.buzzers.rows[b1].asset != db.buzzers.rows[b2].asset
  {
  }

  /**
   After `vincular_buzzer_ativo(b, a)` with both present, the asset listing
   shows `b` under `a`, and the buzzer listing shows `b` named after `a` and
   no other buzzer on `a`.
   */
  lemma RebindSeenByQueries(db: Db, buzzer: int, asset: int)
    requires db.Valid()
    requires buzzer in db.buzzers.rows && asset in db.assets.rows
    requires Bindable(Some(buzzer)) && Bindable(Some(asset))
    ensures var after := Commit(db, Rebind(db, Some(buzzer), Some(asset)));
      && after.Valid()
      && AssetsWithDevices(after)[asset].buzzer == Some(buzzer)
      && BuzzersWithAssets(after)[buzzer].name == Some(db.assets.rows[asset].name)
      && forall k :: k in BuzzersWithAssets(after) && k != buzzer ==> after.buzzers.rows[k].asset != Some(asset)
  {
    RebindPreservesValid(db, Some(buzzer), Some(asset));
  }

  // The states of the scenario below, one per call.
  const Emap: Asset := Asset("EMAP", Some("-2.578183"), Some("-44.36666"))
  const Granel: Asset := Asset("Granel Química", Some("-2.573947"), Some("-44.3655073"))
  const ScenarioCalls: seq<Call> := [
    InsertAssetCall(PyText("EMAP"), PyText("-2.578183"), PyText("-44.36666")),
    InsertAssetCall(PyText("Granel Química"), PyText("-2.573947"), PyText("-44.3655073")),
    InsertBuzzerCall(PyText("-2.578183"), PyText("-44.36666"), None),
    RebindCall(Some(1), Some(1)),
    RebindCall(Some(1), Some(2))]

  function ScenarioState(bound: Option<int>): Db {
    Db(Table(map[1 := Emap, 2 := Granel], 2), Table(map[], 0), multiset{},
       Table(map[1 := Buzzer("-2.578183", "-44.36666", bound)], 1))
  }

  lemma ScenarioInserts()
    ensures Run(Empty, ScenarioCalls[..3]) == ScenarioState(None)
  {
    var calls := ScenarioCalls[..3];
    var db1 := Apply(Empty, calls[0]);
    assert db1 == Db(Table(map[1 := Emap], 1), Table(map[], 0), multiset{}, Table(map[], 0));
    var db2 := Apply(db1, calls[1]);
    assert db2 == Db(Table(map[1 := Emap, 2 := Granel], 2), Table(map[], 0), multiset{}, Table(map[], 0));
    var db3 := Apply(db2, calls[2]);
    assert db3 == ScenarioState(None);
    assert Run(db2, calls[2..]) == Run(db3, []) by {
      assert calls[2..][0] == calls[2] && calls[2..][1..] == [];
    }
    assert Run(db1, calls[1..]) == Run(db2, calls[2..]) by {
      assert calls[1..][0] == calls[1] && calls[1..][1..] == calls[2..];
    }
  }

  lemma ScenarioRebinds()
    ensures Run(ScenarioState(None), ScenarioCalls[3..]) == ScenarioState(Some(2))
  {
    var calls := ScenarioCalls[3..];
    var db4 := Apply(ScenarioState(None), calls[0]);
    assert db4.buzzers.rows == map[1 := Buzzer("-2.578183", "-44.36666", Some(1))];
    assert db4 == ScenarioState(Some(1));
    var db5 := Apply(db4, calls[1]);
    assert db5.buzzers.rows == map[1 := Buzzer("-2.578183", "-44.36666", Some(2))];
    assert db5 == ScenarioState(Some(2));
    assert Run(db4, calls[1..]) == Run(db5, []) by {
      assert calls[1..][0] == calls[1] && calls[1..][1..] == [];
    }
  }

  lemma {:induction false} RunAppend(db: Db, front: seq<Call>, back: seq<Call>)
    ensures Run(db, front + back) == Run(Run(db, front), back)
    decreases |front|
  {
    if front != [] {
      assert (front + back)[0] == front[0] && (front + back)[1..] == front[1..] + back;
      RunAppend(Apply(db, front[0]), front[1..], back);
    } else {
      assert front + back == back;
    }
  }

  lemma ScenarioRun()
    ensures Run(CreateSchema(None), ScenarioCalls) == ScenarioState(Some(2))
  {
    ScenarioInserts();
    ScenarioRebinds();
    RunAppend(Empty, ScenarioCalls[..3], ScenarioCalls[3..]);
    assert ScenarioCalls[..3] + ScenarioCalls[3..] == ScenarioCalls;
  }

  lemma ScenarioStateValid(bound: Option<int>)
    ensures OneBuzzerPerAsset(ScenarioState(bound).buzzers.rows)
  {
    var rows := ScenarioState(bound).buzzers.rows;
    assert rows.Keys == {1};
  }

  lemma ScenarioBuzzerListing()
    ensures BuzzersWithAssets(ScenarioState(Some(2)))
      == map[1 := BuzzerView(1, Some("Granel Química"), Some("-2.573947"), Some("-44.3655073"))]
  {
    var db := ScenarioState(Some(2));
    assert db.buzzers.rows.Keys == {1};
    assert BuzzersWithAssets(db).Keys == {1};
  }

  lemma ScenarioListings()
    ensures OneBuzzerPerAsset(ScenarioState(Some(2)).buzzers.rows)
    ensures
      var db := ScenarioState(Some(2));
      && BuzzersWithAssets(db) == map[1 := BuzzerView(1, Some("Granel Química"), Some("-2.573947"), Some("-44.3655073"))]
      && AssetsWithDevices(db)[1].buzzer == None
      && AssetsWithDevices(db)[2].buzzer == Some(1)
  {
    var db := ScenarioState(Some(2));
    ScenarioStateValid(Some(2));
    ScenarioBuzzerListing();
    assert db.buzzers.rows.Keys == {1};
    assert !Held(db.buzzers.rows, 1);
    assert db.buzzers.rows[1].asset == Some(2);
  }

  /**
   Two assets, one unbound buzzer, bound first to the one and then to the
   other: the buzzer listing holds exactly that buzzer, named after the
   second asset, and the first asset has no buzzer.
   */
  lemma ScenarioRebindTwice()
    ensures Run(CreateSchema(None), ScenarioCalls) == ScenarioState(Some(2))
    ensures OneBuzzerPerAsset(ScenarioState(Some(2)).buzzers.rows)
    ensures
      var db := ScenarioState(Some(2));
      && BuzzersWithAssets(db) == map[1 := BuzzerView(1, Some("Granel Química"), Some("-2.573947"), Some("-44.3655073"))]
      && AssetsWithDevices(db)[1].buzzer == None
      && AssetsWithDevices(db)[2].buzzer == Some(1)
  {
    ScenarioRun();
    ScenarioListings();
  }

  /**
   A freshly created schema numbers each table from 1: the first asset,
   camera and buzzer all get id 1, which the example calls rely on.
   */
  lemma FreshSchemaIssuesOne(name: string, latitude: PyValue, longitude: PyValue)
    ensures
      var r := InsertAsset(CreateSchema(None), PyText(name), latitude, longitude);
      r.Success? && r.value.assets.rows.Keys == {1}
    ensures
      var r := InsertCamera(CreateSchema(None), PyText(name), latitude, longitude);
      r.Success? && r.value.cameras.rows.Keys == {1}
    ensures
      var r := InsertBuzzer(CreateSchema(None), latitude, longitude, None);
      r.Success? && r.value.buzzers.rows.Keys == {1}
  {
  }
}

=== FILE: schema.dfy ===
/**
 The four tables of the monitoring database and the constraints its schema
 enforces: AUTOINCREMENT ids, NOT NULL names, the composite primary key of
 the asset-camera links and the UNIQUE asset column of the buzzers.
 Foreign keys are declared but SQLite leaves them unenforced by default, so
 ids stored in links and buzzers are unchecked integers.
 */
module Schema {
  import opened Wrappers
  import opened Sqlite

  /** A row of `ativos`: coordinates are nullable text columns. */
  datatype Asset = Asset(name: string, latitude: Option<string>, longitude: Option<string>)

  /** A row of `cameras`, shaped like an asset. */
  datatype Camera = Camera(name: string, latitude: Option<string>, longitude: Option<string>)

  /** A row of `ativos_cameras`. */
  datatype Link = Link(asset: Option<int>, camera: Option<int>)

  /** A row of `buzzers`: coordinates are NOT NULL, the asset is nullable and UNIQUE. */
  datatype Buzzer = Buzzer(latitude: string, longitude: string, asset: Option<int>)

  /**
   A table keyed by `id INTEGER PRIMARY KEY AUTOINCREMENT`. `issued` is the
   table's sqlite_sequence entry: the largest id ever handed out, 0 before the
   first insert.
   */
  datatype Table<R> = Table(rows: map<int, R>, issued: nat) {

    predicate Valid() {
      && issued <= MaxRowId
      && forall id :: id in rows ==> 1 <= id <= issued
    }

    /** The id the next insert receives. */
    function NextId(): int {
      issued + 1
    }
  }

  datatype Db = Db(
    assets: Table<Asset>,
    cameras: Table<Camera>,
    links: multiset<Link>,
    buzzers: Table<Buzzer>)
  {
    /** Everything the schema guarantees of any state reachable through it. */
    predicate Valid() {
      && assets.Valid()
      && cameras.Valid()
      && buzzers.Valid()
      && LinksUnique(links)
      && OneBuzzerPerAsset(buzzers.rows)
    }
  }

  /**
   The composite primary key: a link whose two ids are both non-NULL occurs
   once. SQLite admits NULL into such a key and treats NULLs as distinct, so
   links with a NULL id may repeat.
   */
  predicate LinksUnique(links: multiset<Link>) {
    forall l :: l in links && l.asset.Some? && l.camera.Some? ==> links[l] == 1
  }

  /** The UNIQUE constraint on `buzzers.ativo_id`: distinct buzzers never share a non-NULL asset. */
  predicate OneBuzzerPerAsset(buzzers: map<int, Buzzer>) {
    forall b1, b2 ::
      b1 in buzzers && b2 in buzzers && b1 != b2 && buzzers[b1].asset.Some? ==>
        buzzers[b1].asset != buzzers[b2].asset
  }

  /** Some buzzer is bound to `asset`. */
  predicate Held(buzzers: map<int, Buzzer>, asset: int) {
    exists b :: b in buzzers && buzzers[b].asset == Some(asset)
  }

  /** A freshly created database: four empty tables. */
  const Empty: Db := Db(Table(map[], 0), Table(map[], 0), multiset{}, Table(map[], 0))

  /**
   Every statement of the schema is CREATE TABLE IF NOT EXISTS: an existing
   database is kept as it is, a missing one starts empty.
   */
  function CreateSchema(existing: Option<Db>): (db: Db)
    ensures existing.None? ==> db.Valid() && db.assets.rows == map[] && db.buzzers.rows == map[]
    ensures existing.None? ==> db.cameras.rows == map[] && db.links == multiset{}
    ensures existing.None? ==> db.assets.issued == 0 && db.cameras.issued == 0 && db.buzzers.issued == 0
    ensures existing.Some? ==> db == existing.value
  {
    match existing
    case None => Empty
    case Some(current) => current
  }
}

=== FILE: sqlite.dfy ===
/**
 What the registry relies on from SQLite and from Python's sqlite3 binding:
 the signed 64-bit integer range, how Python arguments are bound, and the
 exceptions a failing statement raises.
 */
module Sqlite {
  import opened Wrappers

  const MinInt64: int := -0x8000_0000_0000_0000
  const MaxInt64: int := 0x7FFF_FFFF_FFFF_FFFF

  /** The largest rowid; an AUTOINCREMENT table refuses to go past it. */
  const MaxRowId: int := MaxInt64

  /** A Python argument passed for a text column: None or a str. */
  datatype PyValue = PyNone | PyText(text: string)

  /** Python's `str()`: a str is itself, None becomes the text "None". */
  function Str(v: PyValue): string {
    match v
    case PyNone => "None"
    case PyText(s) => s
  }

  /** sqlite3 binds a Python int only inside the signed 64-bit range (None binds NULL). */
  predicate Bindable(x: Option<int>) {
    x.None? || MinInt64 <= x.value <= MaxInt64
  }

  /** The exceptions a registry statement can raise. */
  datatype DbError =
    | IntegrityError(message: string)
    | OperationalError(message: string)
    | OverflowError

  const FullMessage: string := "database or disk is full"
  const AssetNameNotNull: string := "NOT NULL constraint failed: ativos.nome"
  const CameraNameNotNull: string := "NOT NULL constraint failed: cameras.nome"
  const LinkKeyUnique: string := "UNIQUE constraint failed: ativos_cameras.ativo_id, ativos_cameras.camera_id"
  const BuzzerAssetUnique: string := "UNIQUE constraint failed: buzzers.ativo_id"
}

=== FILE: utf8.dfy ===
/**
 Python's strict UTF-8 decoder (`bytes.decode()` with its defaults), which
 the message consumer applies to every payload, and the encoder a publisher
 applies to a text payload. Well-formed sequences are those of Table 3-7 of
 the Unicode Standard: no overlong forms, no surrogates, nothing above
 U+10FFFF; anything else makes the decoder raise UnicodeDecodeError.
 */
module Utf8 {
  import opened Wrappers

  type byte = x: int | 0 <= x < 0x100

  predicate IsContinuation(b: byte) {
    0x80 <= b <= 0xBF
  }

  /**
   The scalar value encoded at the head of `bs` and the number of bytes it
   takes, or None if the head is not well-formed.
   */
  function DecodeFirst(bs: seq<byte>): (r: Option<(char, nat)>)
    requires |bs| > 0
    ensures r.Some? ==> 1 <= r.value.1 <= 4 && r.value.1 <= |bs|
  {
    var b0: int := bs[0];
    if b0 <= 0x7F then
      Some((b0 as char, 1))
    else if 0xC2 <= b0 <= 0xDF then
      if |bs| < 2 || !IsContinuation(bs[1]) then None
      else
        var b1: int := bs[1];
        Some((((b0 - 0xC0) * 0x40 + (b1 - 0x80)) as char, 2))
    else if 0xE0 <= b0 <= 0xEF then
      // E0 excludes overlong forms, ED excludes the surrogates
      var lo := if b0 == 0xE0 then 0xA0 else 0x80;
      var hi := if b0 == 0xED then 0x9F else 0xBF;
      if |bs| < 3 || !(lo <= bs[1] <= hi) || !IsContinuation(bs[2]) then None
      else
        var b1: int, b2: int := bs[1], bs[2];
        Some((((b0 - 0xE0) * 0x1000 + (b1 - 0x80) * 0x40 + (b2 - 0x80)) as char, 3))
    else if 0xF0 <= b0 <= 0xF4 then
      // F0 excludes overlong forms, F4 stops at U+10FFFF
      var lo := if b0 == 0xF0 then 0x90 else 0x80;
      var hi := if b0 == 0xF4 then 0x8F else 0xBF;
      if |bs| < 4 || !(lo <= bs[1] <= hi) || !IsContinuation(bs[2]) || !IsContinuation(bs[3]) then None
      else
        var b1: int, b2: int, b3: int := bs[1], bs[2], bs[3];
        Some((((b0 - 0xF0) * 0x40000 + (b1 - 0x80) * 0x1000 + (b2 - 0x80) * 0x40 + (b3 - 0x80)) as char, 4))
    else None
  }

  /** The whole byte string as text, or None where Python raises UnicodeDecodeError. */
  function Decode(bs: seq<byte>): (r: Option<string>)
    ensures r.Some? ==> |r.value| <= |bs|
    decreases |bs|
  {
    if bs == [] then Some([])
    else match DecodeFirst(bs)
      case None => None
      case Some((c, n)) =>
        match Decode(bs[n..])
        case None => None
        case Some(rest) => Some([c] + rest)
  }

  /** The shortest UTF-8 form of one scalar value. */
  function EncodeChar(c: char): (bs: seq<byte>)
    ensures 1 <= |bs| <= 4
    ensures |bs| == 1 <==> (c as int) < 0x80
    ensures |bs| == 2 <==> 0x80 <= (c as int) < 0x800
    ensures |bs| == 3 <==> 0x800 <= (c as int) < 0x10000
    ensures !IsContinuation(bs[0])
    ensures forall i :: 1 <= i < |bs| ==> IsContinuation(bs[i])
  {
    var cp := c as int;
    if cp < 0x80 then [cp]
    else if cp < 0x800 then [0xC0 + cp / 0x40, 0x80 + cp % 0x40]
    else if cp < 0x10000 then [0xE0 + cp / 0x1000, 0x80 + cp / 0x40 % 0x40, 0x80 + cp % 0x40]
    else [0xF0 + cp / 0x40000, 0x80 + cp / 0x1000 % 0x40, 0x80 + cp / 0x40 % 0x40, 0x80 + cp % 0x40]
  }

  /** `str.encode()`: the text as UTF-8, one scalar value after another. */
  function Encode(s: string): (bs: seq<byte>)
    ensures |s| <= |bs| <= 4 * |s|
  {
    if s == [] then [] else EncodeChar(s[0]) + Encode(s[1..])
  }

  /** Division by 64 splits a number into a quotient and a six-bit digit, and only one way. */
  lemma SplitSix(x: int, q: int, r: int)
    requires 0 <= r < 0x40
    ensures x == q * 0x40 + r <==> x / 0x40 == q && x % 0x40 == r
  {
  }

  lemma SixBitDigits(cp: nat)
    ensures cp / 0x1000 == cp / 0x40 / 0x40
    ensures cp / 0x40000 == cp / 0x40 / 0x40 / 0x40
  {
  }

  /** The decoder reads back exactly the character the encoder wrote, whatever follows it. */
  lemma DecodeFirstOfEncoding(c: char, rest: seq<byte>)
    ensures DecodeFirst(EncodeChar(c) + rest) == Some((c, |EncodeChar(c)|))
  {
    var cp := c as int;
    var q0 := cp / 0x40;
    var q1 := q0 / 0x40;
    SplitSix(cp, q0, cp % 0x40);
    SplitSix(q0, q1, q0 % 0x40);
    SplitSix(q1, q1 / 0x40, q1 % 0x40);
    SixBitDigits(cp);
    var bs := EncodeChar(c) + rest;
    if cp < 0x80 {
    } else if cp < 0x800 {
      assert bs[..2] == [0xC0 + q0, 0x80 + cp % 0x40];
    } else if cp < 0x10000 {
      assert bs[..3] == [0xE0 + q1, 0x80 + q0 % 0x40, 0x80 + cp % 0x40];
    } else {
      assert bs[..4] == [0xF0 + q1 / 0x40, 0x80 + q1 % 0x40, 0x80 + q0 % 0x40, 0x80 + cp % 0x40];
    }
  }

  /** Decoding inverts encoding: every text survives the trip through bytes. */
  lemma {:induction false} DecodeEncode(s: string)
    ensures Decode(Encode(s)) == Some(s)
    decreases |s|
  {
    if s != [] {
      var head := EncodeChar(s[0]);
      var tail := Encode(s[1..]);
      DecodeFirstOfEncoding(s[0], tail);
      assert (head + tail)[|head|..] == tail;
      DecodeEncode(s[1..]);
      assert [s[0]] + s[1..] == s;
    }
  }

  /** A well-formed head is the encoding of the character it decodes to. */
  lemma EncodingOfDecodeFirst(bs: seq<byte>)
    requires |bs| > 0 && DecodeFirst(bs).Some?
    ensures EncodeChar(DecodeFirst(bs).value.0) == bs[..DecodeFirst(bs).value.1]
  {
    var (c, n) := DecodeFirst(bs).value;
    var cp := c as int;
    SixBitDigits(cp);
    if n == 2 {
      var b0: int, b1: int := bs[0], bs[1];
      SplitSix(cp, b0 - 0xC0, b1 - 0x80);
    } else if n == 3 {
      var b0: int, b1: int, b2: int := bs[0], bs[1], bs[2];
      var q0 := (b0 - 0xE0) * 0x40 + (b1 - 0x80);
      SplitSix(cp, q0, b2 - 0x80);
      SplitSix(q0, b0 - 0xE0, b1 - 0x80);
    } else if n == 4 {
      var b0: int, b1: int, b2: int, b3: int := bs[0], bs[1], bs[2], bs[3];
      var q1 := (b0 - 0xF0) * 0x40 + (b1 - 0x80);
      var q0 := q1 * 0x40 + (b2 - 0x80);
      SplitSix(cp, q0, b3 - 0x80);
      SplitSix(q0, q1, b2 - 0x80);
      SplitSix(q1, b0 - 0xF0, b1 - 0x80);
    }
  }

  /** Encoding inverts decoding: a payload that decodes is the encoding of its text. */
  lemma {:induction false} EncodeDecode(bs: seq<byte>)
    requires Decode(bs).Some?
    ensures Encode(Decode(bs).value) == bs
    decreases |bs|
  {
    if bs != [] {
      var (c, n) := DecodeFirst(bs).value;
      EncodingOfDecodeFirst(bs);
      EncodeDecode(bs[n..]);
      var s := Decode(bs).value;
      assert s[0] == c && s[1..] == Decode(bs[n..]).value;
      assert Encode(s) == EncodeChar(c) + Encode(s[1..]);
      assert bs[..n] + bs[n..] == bs;
    }
  }

  /** A payload decodes to a text exactly when it is that text's encoding. */
  lemma DecodesExactlyEncodings(bs: seq<byte>)
    ensures forall text :: Decode(bs) == Some(text) <==> Encode(text) == bs
  {
    forall text
      ensures Decode(bs) == Some(text) <==> Encode(text) == bs
    {
      if Encode(text) == bs {
        DecodeEncode(text);
      }
      if Decode(bs) == Some(text) {
        EncodeDecode(bs);
      }
    }
  }

  /**
   The strict decoder refuses the two classic malformations: a two-byte
   overlong form of an ASCII character and an encoded surrogate half.
   */
  lemma OverlongAndSurrogateRejected(b1: byte, b2: byte)
    ensures Decode([0xC0, b1]) == None && Decode([0xC1, b1]) == None
    ensures 0xA0 <= b1 ==> Decode([0xED, b1, b2]) == None
  {
  }
}

=== FILE: wrappers.dfy ===
/** Optional values and results with an error, shared by every module. */
module Wrappers {

  /** A value that may be missing; stands for SQL NULL and Python None. */
  datatype Option<+T> = None | Some(value: T)

  /** The outcome of a call that may raise: the new value, or the exception. */
  datatype Result<+R, +E> = Success(value: R) | Failure(error: E)
}
